=== FILE: README.md ===
# Discord movie bot: the message handler as a Dafny model

The bot in `index.js` listens for chat messages and answers three commands.
`!recommend` and `!movie` send one randomly chosen movie from today's
trending list. `!genre <name>` sends one randomly chosen popular movie of
that genre. Everything the handler decides between receiving a message and
sending its reply is modelled here as pure functions:

- `Router.Classify` trims and lowercases the text and routes it to one of
  five actions. The actions are ignore, trending, usage hint, unknown genre,
  and fetch genre `id` showing token `genre`.
- `Router.RequestFor` gives the one request to the metadata API an action
  needs, if any.
- `Router.Respond` builds the reply from the action, the fetched result list
  (or a failure) and the random draw. The reply is nothing, a text, or one
  embed card.
- `Genres` holds the 19-entry genre table and the token normaliser
  (lowercase, then delete everything outside `a`..`z`).
- `Cards` builds the embed card. It has the title, the overview or the fixed
  fallback text, the rating as text, the poster URL when there is a poster
  path, the flow's colour, and in the genre flow the genre field.
- `JsText` models the JavaScript string operations the handler uses: `trim`,
  `toLowerCase`, `startsWith`, `split(" ")` and the `[^a-z]` filter.
- `DecimalText` models how the rating becomes text.
- `Scenarios` works through concrete commands: `!movie now`, ` !MOVIE`,
  `!genre`, `!genrecomedy`, `!genre  comedy`, `!genre comedy`,
  `!genre science-fiction`, `!genre zzznotreal` and `!genre constructor`.

Inputs the handler gets from outside become parameters:

- the author's bot flag and the message text (`Router.Message`);
- the metadata API's answer (`Router.FetchResult`: a result list, or failure);
- the `Math.random()` draw, as a real `u` with `0 <= u < 1`.

Some behaviour of `index.js` is easy to misread:

- Each flow sends one movie, picked with `Math.floor(Math.random() * n)`
  (index.js:58 and 115).
- Only the genre card has a genre field (index.js:124). The trending card
  has the rating field alone (index.js:66-70).
- The genre argument is `content.split(" ")[1]` (index.js:84-85): field 1 of
  a split on a single space character, not the second whitespace-separated
  word. So `!genre\tcomedy` and `!genre  comedy` both get the usage hint.
- Small JavaScript tests get predicates of their own. `JsText.IsTrimmable`
  is the character set `trim` removes (index.js:43).
  `Router.IsTrendingCommand` is the `===` test against the two trending
  commands (index.js:46). `JsText.StartsWith` is `startsWith("!genre")`
  (index.js:83). `Cards.Present` is the truthiness test on `poster_path`
  and `overview` (index.js:59 and 65). `Genres.Truthy` is the `!genreId`
  guard (index.js:96).
- An empty result list is not checked explicitly. `movies[0]` is
  `undefined`, reading its poster path throws (index.js:59 and 116), and the
  catch sends the apology (index.js:76-79 and 132-136). The model gives that
  apology directly.

## Model

| member | source | states |
|---|---|---|
| JsText.Trim | index.js:43 | the result has no trim-able character at either end, and the input is the result framed by two runs of trim-able characters (ECMAScript WhiteSpace and LineTerminator) |
| JsText.TrimPadded | index.js:43 | whatever trim-able characters surround a text with none at its own ends, trimming gives back exactly that text |
| JsText.TrimIdempotent | index.js:43 | trimming a trimmed text changes nothing |
| JsText.TrimAddsNothing | index.js:43 | a character absent from a text is absent from its trimmed form |
| JsText.Lower | index.js:43 | the lowercase form contains no capital and no character that lowercasing would change again |
| JsText.LowerIdempotent | index.js:43 | lowercasing twice is lowercasing once, so the second `toLowerCase` on the genre token changes nothing |
| JsText.LowerEachChar | index.js:43 | on a text without U+0130, lowercasing keeps the length and maps each character on its own: an ASCII capital moves 32 code points up, KELVIN SIGN becomes `k`, every other character stays as it is |
| JsText.LowerIgnoresAsciiCase | index.js:43 | two texts that differ only in the case of ASCII letters lowercase to the same text, so the commands are case-insensitive |
| JsText.LowerKeepsEnds | index.js:43 | lowercasing a trimmed text leaves no trim-able character at either end |
| JsText.LowerFixes | index.js:93 | a text without capitals (and without the two special characters) is its own lowercase form |
| JsText.Split | index.js:84 | `split(" ")` gives at least one part and no part contains the separator |
| JsText.JoinSplit | index.js:84 | joining the parts of a split with the separator gives back the input: the split loses nothing |
| JsText.SplitJoin | index.js:84 | splitting a join of separator-free parts gives back exactly those parts |
| JsText.SplitField | index.js:84-85 | `args[1]` exists exactly when the split has a second part, and it contains no space |
| JsText.SplitSecondField | index.js:84-85 | field 1 of a split exists exactly when the separator occurs, and it is the text from just after the first separator up to the next one or the end |
| JsText.SplitPartsFromInput | index.js:84-85 | every character of every part occurs in the split text |
| JsText.KeepLetters | index.js:93 | the filter keeps only `a`..`z` and never lengthens the text |
| JsText.KeepLettersFixed | index.js:93 | the filter leaves a text unchanged exactly when all its characters are `a`..`z` |
| Genres.NormalizeKey | index.js:93 | the normalised key contains only the characters `a`..`z` |
| Genres.NormalizeKeyIdempotent | index.js:93 | normalising a normalised key returns the same key |
| Genres.NormalizeLowercaseToken | index.js:93 | on a token that is already lowercase, normalising only removes non-letters |
| Genres.GenreIdsPositive | index.js:18-38 | every id in the table is non-zero, so the truthiness test on a table entry is a membership test |
| Genres.GenreKeysNormalised | index.js:18-38 | every table key is a fixed point of the normaliser, so every entry can be reached |
| Genres.Lookup | index.js:94-100 | the exact-table lookup finds an id exactly for the table's keys, and it is that key's positive id |
| Genres.GenreMapGet | index.js:94 | the property read on the table object: table keys give their id, names outside the table and `Object.prototype` give `undefined` |
| Genres.ConstructorPassesGuard | index.js:93-96 | `constructor` normalises to itself and passes the written truthiness guard, although the table has no such key |
| Genres.GuardOnNormalisedKeys | index.js:93-100 | on normalised keys the written guard accepts exactly the table keys and `constructor`; the exact lookup accepts the table keys only |
| Genres.PrototypeNamesNotKeys | index.js:93-94 | every inherited property name except `constructor` holds a capital or underscore, so no normalised key reaches it |
| DecimalText.RenderDecimal | index.js:68 | the rating text is never empty and starts with `-` exactly when the number is negative; after any `-` it starts with a digit, and a leading `0` is either the whole text or followed by the decimal point |
| DecimalText.Canonicalize | index.js:68 | dropping trailing fractional zeros keeps the number's value and yields its shortest form |
| DecimalText.CanonicalUnique | index.js:68 | two shortest forms of the same number are identical |
| DecimalText.ParseRender | index.js:68 | the rating text reads back as the number's shortest decimal form |
| DecimalText.RenderSameText | index.js:68 | two ratings get the same text exactly when they are the same number |
| DecimalText.RenderZero | index.js:68 | a zero rating is written `0`, whatever its scale |
| DecimalText.NatToStringValue | index.js:68 | the digits written for a whole number read back as that number |
| Cards.Description | index.js:65 | the description is the overview when present and non-empty, otherwise exactly `No description available.`; never empty |
| Cards.PosterUrl | index.js:59-61 | a poster URL exists exactly when the poster path is present and non-empty; it is the fixed base followed by the path |
| Cards.RatingField | index.js:66-70 | the rating field is inline, named `⭐ Rating`, and its text is the vote average as a plain decimal: `-` exactly for a negative number, then digits with no leading zero except a lone `0` before the point, and it reads back as the vote average with no trailing fractional zero |
| Cards.TrendingCard | index.js:59-73 | the trending card has the movie's title, the overview or the fallback text, the poster URL exactly when there is a poster path, exactly one field, the inline rating field of `Cards.RatingField`, and colour `0xff5f5f` |
| Cards.GenreCard | index.js:116-129 | the genre card has the same title, description and poster as the trending card, the `📚 Genre` field holding the typed token first, then the inline rating field of `Cards.RatingField`, and colour `0x7f5fff` |
| Cards.GenreCardExtendsTrendingCard | index.js:120-129 | the genre card is the trending card with a `📚 Genre` field put first and colour `0x7f5fff`; nothing else differs |
| Cards.RatingTextIsTheNumber | index.js:68 | two movies' rating texts agree exactly when their vote averages are the same number |
| Cards.ZeroRatingShown | index.js:68 | a zero vote average is shown as `0`, not dropped |
| Router.CommandText | index.js:43 | the command text has no trim-able character at either end and nothing that lowercasing would change |
| Router.CommandTextChars | index.js:43 | when the message has no U+0130, the command text has the trimmed text's length and each character is the lowercase of the trimmed text's character at the same place |
| Router.CommandTextPadded | index.js:43 | a text with no outer whitespace, padded on both sides with trim-able characters, gives the lowercase of that text as its command |
| Router.CommandTextIdempotent | index.js:43 | trimming and lowercasing a command text again changes nothing |
| Router.GenreArgument | index.js:84-85 | `args[1]` exists exactly when the text holds a space; it is then the text after the first space up to the next space or the end, with no space in it |
| Router.Classify | index.js:40-46 | a resolved genre action carries a positive id and a non-empty token without spaces |
| Router.ClassifyCommand | index.js:83-100 | the same, for a person's trimmed and lowercased text |
| Router.ClassifyGenreArgument | index.js:85-100 | a missing or empty field 1 gets the usage hint, exactly; a non-empty one whose key is not in the table is refused, exactly; a fetch carries the field itself and its key's id |
| Router.ClassifyCases | index.js:41-46 | a bot's message is ignored; a trending command never starts with `!genre` and runs the trending flow; a `!genre…` text goes by its field 1; anything else is ignored |
| Router.RequestFor | index.js:46-112 | only the trending and genre-fetch actions send a request; the genre request filters on the resolved id, sorted by `popularity.desc` |
| Router.PickIndex | index.js:58 | for a non-empty list, `Math.floor(u * n)` is an index in `[0, n)` |
| Router.FlowReply | index.js:57-79 | with a non-empty result list the reply is one card of one of the listed movies; otherwise it is the flow's apology |
| Router.Respond | index.js:57-136 | ignore gives no reply, the validation failures give their fixed texts, and each flow gives one card of a fetched movie or its own apology |
| Router.HandleMessage | index.js:40-138 | a bot gets no reply; a card is sent only after a request, and after a request exactly when it returned a non-empty list; otherwise a trending command gets the trending apology and a genre fetch gets the genre apology |
| Router.BotIsIgnored | index.js:41 | a bot's message gets no reply and no request, whatever its content |
| Router.TrendingIsNotGenre | index.js:46 | neither trending command starts with `!genre`, so the two branches never both run |
| Router.TrendingExactly | index.js:43-46 | the trending flow runs exactly when the trimmed, lowercased text is `!recommend` or `!movie` |
| Router.UsageHintExactly | index.js:83-91 | the usage hint is sent exactly for a `!genre…` text whose field 1 is missing or empty |
| Router.GenreUnknownExactly | index.js:93-100 | "Genre not recognized" is sent exactly when field 1 is non-empty and its key is not in the table |
| Router.GenreFetchExactly | index.js:93-112 | a genre fetch happens exactly when the key is in the table, with exactly that key's id and the typed token as label |
| Router.IgnoreExactly | index.js:41-46 | every other message is ignored |
| Router.GenreLabelIsLowercaseToken | index.js:84-85 | the genre label is the lowercased token as typed, and the looked-up key is that token with non-letters removed |
| Router.NoRequestNoDependence | index.js:83-100 | without a request, the reply does not depend on any fetch result or random draw |
| Router.TrendingReplyHasNoGenre | index.js:63-71 | with a non-empty result list, a trending reply is one card whose only field is the rating, in colour `0xff5f5f` |
| Router.GenreReplyShowsToken | index.js:120-127 | with a non-empty result list, a genre reply is one card whose first field is the typed token, then the rating, in colour `0x7f5fff` |
| Scenarios.PlainMessage | index.js:43 | a person's message that is already trimmed and lowercase is routed as it stands |
| Scenarios.GenreCommandArgument | index.js:83-85 | `!genre`, one space and a space-free token is a genre command whose field 1 is exactly the token |
| Scenarios.TrendingCommandWithTextIgnored | index.js:46 | a trending command with anything appended is neither trending nor a genre command, so it is ignored |
| Scenarios.MovieWithArgumentIgnored | index.js:46 | `!movie now` is ignored |
| Scenarios.ShoutedMovieIsTrending | index.js:43-46 | `!MOVIE` surrounded by any white space or line breaks runs the trending flow |
| Scenarios.GenreWithoutSpaceGetsUsageHint | index.js:83-91 | `!genre` followed by any space-free text, including nothing, has no field 1 and gets the usage hint |
| Scenarios.MissingGenreGetsUsageHint | index.js:83-91 | `!genre` alone and `!genrecomedy` get the usage hint, which sends no request |
| Scenarios.DoubleSpaceGetsUsageHint | index.js:83-91 | `!genre` followed by two spaces gets the usage hint, whatever follows |
| Scenarios.GenreTokenRoutes | index.js:84-100 | `!genre` followed by one space-free token routes on that token's normalised key |
| Scenarios.GenreWordRoutes | index.js:84-100 | for a token of letters `a`..`z` only, the route is decided by the exact lookup of the token itself |
| Scenarios.ComedyResolves | index.js:93-112 | `!genre comedy` asks for genre 35 |
| Scenarios.UnknownGenreRefused | index.js:93-100 | `!genre zzznotreal` gets "Genre not recognized" and sends no request |
| Scenarios.ConstructorRefused | index.js:93-100 | with the exact table, `!genre constructor` is refused |
| Scenarios.HyphenatedKey | index.js:93 | two words joined by a hyphen normalise to the words run together |
| Scenarios.DropOneSeparator | index.js:93 | the letter filter removes one non-letter between two words of letters and nothing else |
| Scenarios.HyphenatedGenreRoutes | index.js:84-100 | a hyphenated two-word token routes on the words run together, and the card label keeps the hyphen |
| Scenarios.ScienceFictionResolves | index.js:93-96 | `!genre science-fiction` resolves to 878 and keeps the hyphen in its label |

## Left out

- The Discord client, its gateway intents, `login`, the `ready` log line and `channel.send` (index.js:3-16, 75, 131, 141) are external I/O. The model returns a `Reply` value instead of sending it.
- The `axios.get` calls, the API key and the URLs (index.js:48-55, 103-112) are network I/O. The model returns the `Request` an action needs and takes the answer as a `FetchResult`. A failure of `send` itself is not caught by the source and is not modelled.
- `Math.random()` is floating point. It is a parameter `u` with `0 <= u < 1`, and `Math.floor(u * n)` is computed on exact reals. In doubles the product `u * n` is rounded, so the same draw can pick a neighbouring index: `u = 0.44999999999999996` with `n = 20` gives 9 in doubles and 8 on exact reals. Rounding never takes the index out of `[0, n)`, and the card contracts hold for every index, so only which movie is shown can differ.
- `console.log`, `console.error` and `dotenv` (index.js:2, 15, 77, 133) are logging and environment loading.
- Router.Classify: uses an exact finite table. The source's property read also finds `Object.prototype` members, so `!genre constructor` passes its guard. That behaviour is modelled only in `Genres.GenreMapGet` (see Findings).
- JsText.Lower: is exact for the ASCII capitals and for the two non-ASCII characters whose lowercase form contains an ASCII letter (U+0130 and U+212A). Other non-ASCII characters are kept unchanged, while JavaScript lowercases them too. This only changes the genre label's text, never which command or key is recognised.
- DecimalText.RenderDecimal: the vote average is an exact decimal and its text is the shortest plain decimal form. JavaScript uses exponent notation below 1e-6 and from 1e21 up, and it rounds inputs with more than about 15 significant digits to a double first. Vote averages are never in those ranges.
- Cards.Movie: a record has a title, an overview, a numeric vote average and a poster path. Malformed records, such as a missing title or a non-numeric vote average, are left out. The result list's other fields are not read by the handler.
- Router.FlowReply: does not model the length checks of discord.js's `EmbedBuilder`. Its setters throw on a title over 256 characters, a description over 4096 or a field value over 1024. That error is caught (index.js:76-79 and 132-136), so the user gets the flow's apology instead of a card. For example, `!genre comedy` followed by 1019 hyphens has a 1025-character token and still normalises to `comedy`. The library's validation is outside `index.js`, so the model always builds the card.
- Router.Respond: inherits the same gap from `Router.FlowReply`. A card that fails the builder's length checks gets the apology in the source but a card in the model.
- Router.HandleMessage: inherits the same gap from `Router.FlowReply`.

## Findings

| source | as written | input that shows it | evidently intended | confidence | as-written member | corrected member |
|---|---|---|---|---|---|---|
| index.js:94-96 | `genreMap[genreKey]` is a property read on a plain object. It also finds inherited `Object.prototype` members, so the `!genreId` guard lets the key `constructor` through with a function as its "id". | `!genre constructor` | only the 19 table keys are recognised; anything else gets "Genre not recognized" | high for the guard passing, which follows from the language semantics; what the API then returns is unknown; not executed | Genres.ConstructorPassesGuard | Scenarios.ConstructorRefused |

=== FILE: cards.dfy ===
/**
 The embed card each flow of index.js builds from the one movie it picked:
 title, description with its fallback, rating field, optional poster image,
 and a colour that tells the trending card from the genre card.
 */
module Cards {

  import opened Optional
  import opened JsText
  import opened DecimalText

  /** One record of the metadata API's result list. `overview` and
      `posterPath` may be missing (`null` or absent). */
  datatype Movie = Movie(
    title: string,
    overview: Option<string>,
    voteAverage: Decimal,
    posterPath: Option<string>)

  datatype Field = Field(name: string, value: string, inline: bool)

  datatype Card = Card(
    title: string,
    description: string,
    fields: seq<Field>,
    color: int,
    image: Option<string>)

  const PosterBase := "https://image.tmdb.org/t/p/w500"
  const NoDescription := "No description available."
  const RatingName := "\U{2B50} Rating"
  const GenreName := "\U{1F4DA} Genre"
  const TrendingColor := 0xff5f5f
  const GenreColor := 0x7f5fff

  /** A JavaScript string property is truthy when present and non-empty. */
  predicate Present(s: Option<string>) {
    s.Some? && s.value != ""
  }

  /** `movie.overview || "No description available."`. */
  function Description(m: Movie): (d: string)
    ensures Present(m.overview) ==> d == m.overview.value
    ensures !Present(m.overview) ==> d == NoDescription
    ensures d != ""
  {
    if Present(m.overview) then m.overview.value else NoDescription
  }

  /** The poster URL, made only when the movie has a non-empty poster path;
      dropping the fixed base gives the path back. */
  function PosterUrl(m: Movie): (u: Option<string>)
    ensures u.Some? <==> Present(m.posterPath)
    ensures u.Some? ==> StartsWith(u.value, PosterBase)
                        && u.value[|PosterBase|..] == m.posterPath.value
  {
    if Present(m.posterPath) then Some(PosterBase + m.posterPath.value) else None
  }

  /** The rating field, shown inline: its text is the vote average written as
      a plain decimal (no leading zero, no trailing fractional zero), and it
      reads back as that number. */
  function RatingField(m: Movie): (f: Field)
    ensures f.name == RatingName && f.inline
    ensures f.value == RenderDecimal(m.voteAverage)
    ensures ParseDecimal(f.value) == Some(Canonicalize(m.voteAverage))
  {
    ParseRender(m.voteAverage);
    Field(RatingName, RenderDecimal(m.voteAverage), true)
  }

  function GenreField(genre: string): Field {
    Field(GenreName, genre, true)
  }

  /** The card of the trending flow: the movie's title, its overview or the
      fallback, its rating as the only field, its poster when it has a
      poster path, and the trending colour. */
  function TrendingCard(m: Movie): (c: Card)
    ensures c.title == m.title
    ensures Present(m.overview) ==> c.description == m.overview.value
    ensures !Present(m.overview) ==> c.description == NoDescription
    ensures c.image.Some? <==> Present(m.posterPath)
    ensures c.image.Some? ==> c.image.value == PosterBase + m.posterPath.value
    ensures c.fields == [RatingField(m)]
    ensures c.fields[0].name == RatingName && c.fields[0].inline
    ensures ParseDecimal(c.fields[0].value) == Some(Canonicalize(m.voteAverage))
    ensures c.color == TrendingColor
  {
    var u := PosterUrl(m);
    assert u.Some? ==> u.value == PosterBase + u.value[|PosterBase|..];
    Card(m.title, Description(m), [RatingField(m)], TrendingColor, u)
  }

  /** The card of the genre flow: the requested genre as its first field,
      then the rating, in the genre colour; title, description and poster as
      on the trending card. */
  function GenreCard(m: Movie, genre: string): (c: Card)
    ensures c.title == m.title
    ensures Present(m.overview) ==> c.description == m.overview.value
    ensures !Present(m.overview) ==> c.description == NoDescription
    ensures c.image.Some? <==> Present(m.posterPath)
    ensures c.image.Some? ==> c.image.value == PosterBase + m.posterPath.value
    ensures |c.fields| == 2 && c.fields[0] == Field(GenreName, genre, true)
    ensures c.fields[1] == RatingField(m)
    ensures c.fields[1].name == RatingName && c.fields[1].inline
    ensures ParseDecimal(c.fields[1].value) == Some(Canonicalize(m.voteAverage))
    ensures c.color == GenreColor
  {
    var u := PosterUrl(m);
    assert u.Some? ==> u.value == PosterBase + u.value[|PosterBase|..];
    Card(m.title, Description(m), [GenreField(genre), RatingField(m)], GenreColor, u)
  }

  /** A genre card is the trending card of the same movie with the genre
      field put first and the other colour; nothing else differs. */
  lemma GenreCardExtendsTrendingCard(m: Movie, genre: string)
    ensures var t := TrendingCard(m);
            GenreCard(m, genre)
              == t.(fields := [Field(GenreName, genre, true)] + t.fields, color := GenreColor)
    ensures GenreCard(m, genre).color != TrendingCard(m).color
  {
  }

  /** Two movies with the same vote average up to trailing zeros get the same
      rating text, and only they do. */
  lemma RatingTextIsTheNumber(a: Movie, b: Movie)
    ensures RatingField(a).value == RatingField(b).value
            <==> SameValue(a.voteAverage, b.voteAverage)
  {
    RenderSameText(a.voteAverage, b.voteAverage);
  }

  /** A zero vote average is still shown, as `0`. */
  lemma ZeroRatingShown(m: Movie)
    requires m.voteAverage.units == 0
    ensures RatingField(m).value == "0"
  {
    RenderZero(m.voteAverage.scale);
  }
}

=== FILE: decimal.dfy ===
/**
 The text a JavaScript template literal gives a number (`${movie.vote_average}`
 in index.js). The metadata API sends the rating as a JSON decimal; it is kept
 here as an exact decimal `units / 10^scale`, and its text is the shortest
 plain decimal notation of that value, as JavaScript's Number-to-String
 conversion produces it: no trailing fractional zeros, no fractional part for
 an integer, a leading `0` before the point, `-` only for a negative value.
 */
module DecimalText {

  import opened Optional
  import JsText

  function Pow10(k: nat): (r: nat)
    ensures r >= 1
  {
    if k == 0 then 1 else 10 * Pow10(k - 1)
  }

  lemma {:induction false} Pow10Add(i: nat, j: nat)
    ensures Pow10(i + j) == Pow10(i) * Pow10(j)
  {
    if i > 0 {
      Pow10Add(i - 1, j);
      assert Pow10(i + j) == 10 * Pow10(i - 1 + j);
    }
  }

  /** The number `units / 10^scale`. */
  datatype Decimal = Decimal(units: int, scale: nat)

  /** `a` and `b` denote the same number. */
  predicate SameValue(a: Decimal, b: Decimal) {
    a.units * Pow10(b.scale) == b.units * Pow10(a.scale)
  }

  /** No trailing fractional zero: the shortest way to write the number. */
  predicate Canonical(d: Decimal) {
    d.scale == 0 || d.units % 10 != 0
  }

  /** Drops trailing fractional zeros. */
  function Canonicalize(d: Decimal): (c: Decimal)
    ensures Canonical(c)
    ensures SameValue(c, d)
    ensures c.scale <= d.scale
    decreases d.scale
  {
    if d.scale > 0 && d.units % 10 == 0 then
      var q := d.units / 10;
      var c := Canonicalize(Decimal(q, d.scale - 1));
      assert d.units == 10 * q;
      assert Pow10(d.scale) == 10 * Pow10(d.scale - 1);
      ScaleByTen(c.units, q, Pow10(d.scale - 1), Pow10(c.scale));
      c
    else
      d
  }

  lemma ScaleByTen(x: int, y: int, p: int, r: int)
    requires x * p == y * r
    ensures x * (10 * p) == (10 * y) * r
  {
    assert x * (10 * p) == 10 * (x * p);
    assert (10 * y) * r == 10 * (y * r);
  }

  lemma SameValueSymmetric(a: Decimal, b: Decimal)
    requires SameValue(a, b)
    ensures SameValue(b, a)
  {
  }

  lemma {:induction false} SameValueTransitive(a: Decimal, b: Decimal, c: Decimal)
    requires SameValue(a, b) && SameValue(b, c)
    ensures SameValue(a, c)
  {
    var pa, pb, pc := Pow10(a.scale), Pow10(b.scale), Pow10(c.scale);
    MulSwap(a.units, pc, pb);
    MulByEqual(a.units * pb, b.units * pa, pc);
    MulSwap(b.units, pa, pc);
    MulByEqual(b.units * pc, c.units * pb, pa);
    MulSwap(c.units, pb, pa);
    Cancel(a.units * pc, c.units * pa, pb);
  }

  lemma MulSwap(x: int, y: int, z: int)
    ensures (x * y) * z == (x * z) * y
  {
  }

  lemma MulByEqual(x: int, y: int, z: int)
    requires x == y
    ensures x * z == y * z
  {
  }

  lemma MulRotate(x: int, y: int, z: int)
    ensures x * (y * z) == (x * z) * y
  {
  }

  lemma TimesTenEndsInZero(x: int, p: int)
    ensures (x * (10 * p)) % 10 == 0
  {
    assert x * (10 * p) == 10 * (x * p);
  }

  lemma Cancel(x: int, y: int, p: int)
    requires p > 0 && x * p == y * p
    ensures x == y
  {
    assert (x - y) * p == 0;
  }

  /** Two canonical decimals of the same number are the same decimal. */
  lemma {:induction false} CanonicalUnique(a: Decimal, b: Decimal)
    requires Canonical(a) && Canonical(b) && SameValue(a, b)
    ensures a == b
  {
    if a.scale < b.scale {
      ScaledUpEndsInZero(a, b);
      assert false;
    } else if b.scale < a.scale {
      SameValueSymmetric(a, b);
      ScaledUpEndsInZero(b, a);
      assert false;
    } else {
      Cancel(a.units, b.units, Pow10(a.scale));
    }
  }

  /** Written with more fractional digits than another form of the same
      number, a decimal ends in a zero digit. */
  lemma {:induction false} ScaledUpEndsInZero(a: Decimal, b: Decimal)
    requires SameValue(a, b) && a.scale < b.scale
    ensures b.units % 10 == 0
  {
    var k := b.scale - a.scale;
    var pa, pk := Pow10(a.scale), Pow10(k);
    Pow10Add(a.scale, k);
    assert a.scale + k == b.scale;
    MulRotate(a.units, pa, pk);
    Cancel(a.units * pk, b.units, pa);
    assert pk == 10 * Pow10(k - 1);
    TimesTenEndsInZero(a.units, Pow10(k - 1));
  }

  // ---------------------------------------------------------------------------
  // digit strings
  // ---------------------------------------------------------------------------

  predicate IsDigit(c: char) { '0' <= c <= '9' }

  predicate AllDigits(s: string) {
    forall i :: 0 <= i < |s| ==> IsDigit(s[i])
  }

  function DigitChar(d: nat): (c: char)
    requires d < 10
    ensures IsDigit(c)
  {
    ('0' as int + d) as char
  }

  /** The value of a digit string, leading zeros allowed. */
  function DigitsValue(s: string): nat
    requires AllDigits(s)
  {
    if s == [] then 0
    else DigitsValue(s[..|s| - 1]) * 10 + (s[|s| - 1] as int - '0' as int)
  }

  /** The decimal digits of `n`, most significant first, without leading zeros. */
  function NatToString(n: nat): (s: string)
    ensures |s| >= 1 && AllDigits(s)
    ensures s[0] == '0' ==> n == 0
  {
    if n < 10 then [DigitChar(n)] else NatToString(n / 10) + [DigitChar(n % 10)]
  }

  /** Only zero is written with a leading `0`, and then as `0` alone. */
  lemma NatToStringZero(n: nat)
    ensures NatToString(n)[0] == '0' ==> NatToString(n) == "0"
  {
  }

  lemma {:induction false} NatToStringValue(n: nat)
    ensures DigitsValue(NatToString(n)) == n
  {
    if n >= 10 {
      NatToStringValue(n / 10);
      var s := NatToString(n);
      assert s[..|s| - 1] == NatToString(n / 10);
    }
  }

  /** Below `10^k` a number needs at most `k` digits. */
  lemma {:induction false} NatToStringLength(n: nat, k: nat)
    requires k >= 1 && n < Pow10(k)
    ensures |NatToString(n)| <= k
  {
    if n >= 10 {
      assert Pow10(1) == 10;
      assert k >= 2;
      assert n / 10 < Pow10(k - 1);
      NatToStringLength(n / 10, k - 1);
    }
  }

  function Zeros(k: nat): (s: string)
    ensures |s| == k && AllDigits(s)
  {
    if k == 0 then [] else Zeros(k - 1) + ['0']
  }

  /** `s` left-padded with zeros to `width` characters. */
  function PadZeros(s: string, width: nat): (r: string)
    requires AllDigits(s)
    ensures AllDigits(r)
    ensures |r| == if |s| < width then width else |s|
  {
    if |s| < width then Zeros(width - |s|) + s else s
  }

  lemma {:induction false} DigitsValueAppend(a: string, b: string)
    requires AllDigits(a) && AllDigits(b)
    ensures AllDigits(a + b)
    ensures DigitsValue(a + b) == DigitsValue(a) * Pow10(|b|) + DigitsValue(b)
  {
    AllDigitsAppend(a, b);
    if b == [] {
      assert a + b == a;
    } else {
      var b' := b[..|b| - 1];
      assert (a + b)[..|a + b| - 1] == a + b';
      DigitsValueAppend(a, b');
      var last := b[|b| - 1] as int - '0' as int;
      assert DigitsValue(a + b) == DigitsValue(a + b') * 10 + last;
      assert DigitsValue(b) == DigitsValue(b') * 10 + last;
      assert Pow10(|b|) == Pow10(|b'|) * 10;
      ShiftOneDigit(DigitsValue(a), DigitsValue(b'), Pow10(|b'|), last);
    }
  }

  lemma ShiftOneDigit(x: int, y: int, p: int, d: int)
    ensures (x * p + y) * 10 + d == x * (p * 10) + (y * 10 + d)
  {
  }

  lemma AllDigitsAppend(a: string, b: string)
    requires AllDigits(a) && AllDigits(b)
    ensures AllDigits(a + b)
  {
    forall i | 0 <= i < |a + b| ensures IsDigit((a + b)[i]) {
      if i < |a| { assert (a + b)[i] == a[i]; } else { assert (a + b)[i] == b[i - |a|]; }
    }
  }

  lemma {:induction false} ZerosValue(k: nat)
    ensures DigitsValue(Zeros(k)) == 0
  {
    if k > 0 {
      ZerosValue(k - 1);
      assert Zeros(k)[..k - 1] == Zeros(k - 1);
    }
  }

  lemma {:induction false} PadZerosValue(s: string, width: nat)
    requires AllDigits(s)
    ensures DigitsValue(PadZeros(s, width)) == DigitsValue(s)
  {
    if |s| < width {
      var z := Zeros(width - |s|);
      assert PadZeros(s, width) == z + s;
      DigitsValueAppend(z, s);
      ZerosValue(width - |s|);
      assert DigitsValue(z) * Pow10(|s|) == 0;
    }
  }

  // ---------------------------------------------------------------------------
  // number text and its parser
  // ---------------------------------------------------------------------------

  function Abs(x: int): (r: int)
    ensures r >= 0
  {
    if x < 0 then -x else x
  }

  /** The text JavaScript gives the number `d` in plain notation. */
  function RenderDecimal(d: Decimal): (s: string)
    ensures |s| >= 1
    ensures s[0] == '-' <==> d.units < 0
    ensures var m := if d.units < 0 then s[1..] else s;
            |m| >= 1 && IsDigit(m[0]) && (m[0] == '0' ==> |m| == 1 || m[1] == '.')
  {
    var c := Canonicalize(d);
    SameValueSign(c, d);
    (if c.units < 0 then "-" else "") + MagnitudeText(c)
  }

  /** Two forms of the same number have the same sign. */
  lemma SameValueSign(a: Decimal, b: Decimal)
    requires SameValue(a, b)
    ensures a.units < 0 <==> b.units < 0
  {
    NegativeTimesPositive(a.units, Pow10(b.scale));
    NegativeTimesPositive(b.units, Pow10(a.scale));
  }

  lemma NegativeTimesPositive(x: int, p: int)
    requires p >= 1
    ensures x < 0 <==> x * p < 0
  {
    if x < 0 {
      assert x * p <= x * 1;
    } else {
      assert x * p >= 0;
    }
  }

  /** The magnitude of `c`: its whole digits, then a point and exactly
      `c.scale` fraction digits unless `c` is an integer. */
  function MagnitudeText(c: Decimal): (s: string)
    ensures |s| >= 1 && IsDigit(s[0])
    ensures s[0] == '0' ==> |s| == 1 || s[1] == '.'
  {
    NatToStringZero(WholePart(c));
    if c.scale == 0 then WholeDigits(c) else WholeDigits(c) + "." + FractionDigits(c)
  }

  /** The digits of the magnitude of `c` before the point. */
  function WholeDigits(c: Decimal): string {
    NatToString(WholePart(c))
  }

  /** The `c.scale` digits of the magnitude of `c` after the point. */
  function FractionDigits(c: Decimal): string {
    PadZeros(NatToString(FractionPart(c)), c.scale)
  }

  function WholePart(c: Decimal): nat {
    Quotient(Abs(c.units), Pow10(c.scale))
  }

  function Quotient(m: nat, p: nat): nat
    requires p >= 1
  {
    m / p
  }

  function FractionPart(c: Decimal): (f: nat)
    ensures f < Pow10(c.scale)
  {
    var m, p := Abs(c.units), Pow10(c.scale);
    m % p
  }

  /** Whole and fraction parts recombine into the magnitude. */
  lemma WholeFractionSplit(c: Decimal)
    ensures WholePart(c) * Pow10(c.scale) + FractionPart(c) == Abs(c.units)
  {
  }

  /** Reads back plain decimal notation: an optional `-`, digits, and an
      optional `.` followed by digits. */
  function ParseDecimal(s: string): (r: Option<Decimal>)
    ensures r.Some? ==> |s| >= 1
  {
    if |s| > 0 && s[0] == '-' then
      match ParseMagnitude(s[1..])
      case Some(v) => Some(Decimal(-v.units, v.scale))
      case None => None
    else
      ParseMagnitude(s)
  }

  /** Reads digits with an optional fractional part; the result is never negative. */
  function ParseMagnitude(s: string): (r: Option<Decimal>)
    ensures r.Some? ==> r.value.units >= 0
  {
    var parts := JsText.Split(s, '.');
    if |parts| == 1 && |parts[0]| >= 1 && AllDigits(parts[0]) then
      Some(Decimal(DigitsValue(parts[0]), 0))
    else if |parts| == 2 && |parts[0]| >= 1 && AllDigits(parts[0])
         && |parts[1]| >= 1 && AllDigits(parts[1]) then
      Some(Decimal(DigitsValue(parts[0]) * Pow10(|parts[1]|) + DigitsValue(parts[1]), |parts[1]|))
    else
      None
  }

  lemma {:induction false} DigitsHaveNoPoint(s: string)
    requires AllDigits(s)
    ensures '.' !in s
  {
    assert forall i :: 0 <= i < |s| ==> s[i] != '.';
  }

  /** The whole and fraction digits together spell the magnitude. */
  lemma {:induction false} DigitsSpellMagnitude(c: Decimal)
    ensures DigitsValue(WholeDigits(c)) == WholePart(c)
    ensures c.scale >= 1 ==> |FractionDigits(c)| == c.scale
    ensures DigitsValue(FractionDigits(c)) == FractionPart(c)
  {
    NatToStringValue(WholePart(c));
    NatToStringValue(FractionPart(c));
    PadZerosValue(NatToString(FractionPart(c)), c.scale);
    if c.scale >= 1 {
      NatToStringLength(FractionPart(c), c.scale);
    }
  }

  lemma {:induction false} ParseMagnitudeText(c: Decimal)
    ensures ParseMagnitude(MagnitudeText(c)) == Some(Decimal(Abs(c.units), c.scale))
  {
    var whole := WholeDigits(c);
    DigitsSpellMagnitude(c);
    WholeFractionSplit(c);
    DigitsHaveNoPoint(whole);
    if c.scale == 0 {
      JsText.SplitNoSeparator(whole, '.');
    } else {
      var frac := FractionDigits(c);
      DigitsHaveNoPoint(frac);
      assert JsText.Join([whole, frac], '.') == MagnitudeText(c);
      JsText.SplitJoin([whole, frac], '.');
    }
  }

  /** Reading the text of a number gives back its shortest decimal form. */
  lemma {:induction false} ParseRender(d: Decimal)
    ensures ParseDecimal(RenderDecimal(d)) == Some(Canonicalize(d))
  {
    var c := Canonicalize(d);
    var body := MagnitudeText(c);
    ParseMagnitudeText(c);
    if c.units < 0 {
      assert RenderDecimal(d)[1..] == body;
    } else {
      assert RenderDecimal(d) == body;
    }
  }

  /** Two ratings get the same text exactly when they are the same number. */
  lemma RenderSameText(a: Decimal, b: Decimal)
    ensures RenderDecimal(a) == RenderDecimal(b) <==> SameValue(a, b)
  {
    var ca, cb := Canonicalize(a), Canonicalize(b);
    if RenderDecimal(a) == RenderDecimal(b) {
      ParseRender(a);
      ParseRender(b);
      SameValueSymmetric(ca, a);
      SameValueTransitive(a, ca, b);
    }
    if SameValue(a, b) {
      SameValueTransitive(ca, a, b);
      SameValueSymmetric(cb, b);
      SameValueTransitive(ca, b, cb);
      CanonicalUnique(ca, cb);
    }
  }

  /** Zero is written `0`, whatever scale it came with. */
  lemma {:induction false} RenderZero(k: nat)
    ensures RenderDecimal(Decimal(0, k)) == "0"
  {
    var c := Canonicalize(Decimal(0, k));
    assert c.units * Pow10(k) == 0;
    assert c.units == 0;
    assert c.scale == 0;
  }
}

=== FILE: genres.dfy ===
/**
 The genre table of index.js and the way a user's genre token is turned into
 one of its keys: lowercase it, delete everything outside `a`..`z`, look the
 result up by exact key.
 */
module Genres {

  import opened Optional
  import opened JsText

  /** Canonical genre name to the metadata API's genre id. */
  const GenreTable: map<string, int> := map[
    "action" := 28,
    "adventure" := 12,
    "animation" := 16,
    "comedy" := 35,
    "crime" := 80,
    "documentary" := 99,
    "drama" := 18,
    "family" := 10751,
    "fantasy" := 14,
    "history" := 36,
    "horror" := 27,
    "music" := 10402,
    "mystery" := 9648,
    "romance" := 10749,
    "sciencefiction" := 878,
    "tvmovie" := 10770,
    "thriller" := 53,
    "war" := 10752,
    "western" := 37
  ]

  predicate IsGenreKeyShape(key: string) {
    forall i :: 0 <= i < |key| ==> IsAsciiLower(key[i])
  }

  /** `token.toLowerCase().replace(/[^a-z]/g, "")`. */
  function NormalizeKey(token: string): (key: string)
    ensures IsGenreKeyShape(key)
  {
    KeepLetters(Lower(token))
  }

  /** A key of letters `a`..`z` only is left as it is. */
  lemma {:induction false} NormalizeKeyFixes(key: string)
    requires IsGenreKeyShape(key)
    ensures NormalizeKey(key) == key
  {
    LowerFixes(key);
    KeepLettersFixed(key);
  }

  /** Normalising a normalised key changes nothing. */
  lemma NormalizeKeyIdempotent(token: string)
    ensures NormalizeKey(NormalizeKey(token)) == NormalizeKey(token)
  {
    NormalizeKeyFixes(NormalizeKey(token));
  }

  /** A token that is already lowercase only loses its non-letters. */
  lemma NormalizeLowercaseToken(token: string)
    requires forall i :: 0 <= i < |token| ==> IsLowerFixed(token[i])
    ensures NormalizeKey(token) == KeepLetters(token)
  {
    LowerFixes(token);
  }

  /** Every id in the table is a positive number, so the truthiness test on
      an own entry is a membership test. */
  lemma GenreIdsPositive()
    ensures forall key :: key in GenreTable ==> GenreTable[key] > 0
  {
  }

  /** The table's keys, one by one. */
  lemma TableKeys(key: string)
    requires key in GenreTable
    ensures || key == "action"
      || key == "adventure"
      || key == "animation"
      || key == "comedy"
      || key == "crime"
      || key == "documentary"
      || key == "drama"
      || key == "family"
      || key == "fantasy"
      || key == "history"
      || key == "horror"
      || key == "music"
      || key == "mystery"
      || key == "romance"
      || key == "sciencefiction"
      || key == "tvmovie"
      || key == "thriller"
      || key == "war"
      || key == "western"
  {
  }

  /** Every table key is written in `a`..`z` only. */
  lemma GenreKeyShape(key: string)
    requires key in GenreTable
    ensures IsGenreKeyShape(key)
  {
    TableKeys(key);
  }

  /** Every table key is a fixed point of the normaliser, so every entry can
      be reached from some token. */
  lemma GenreKeysNormalised()
    ensures forall key :: key in GenreTable ==> NormalizeKey(key) == key
  {
    forall key | key in GenreTable
      ensures NormalizeKey(key) == key
    {
      GenreKeyShape(key);
      NormalizeKeyFixes(key);
    }
  }

  /** The exact-key lookup of a normalised genre key. */
  function Lookup(key: string): (r: Option<int>)
    ensures r.Some? <==> key in GenreTable
    ensures r.Some? ==> r.value == GenreTable[key] && r.value > 0
  {
    if key in GenreTable then Some(GenreTable[key]) else None
  }

  // ---------------------------------------------------------------------------
  // the lookup as index.js writes it: a property read on a plain object
  // ---------------------------------------------------------------------------

  /** The values a property read on `genreMap` can produce. */
  datatype JsValue = Undefined | Number(n: int) | Inherited(name: string)

  /** JavaScript truthiness of such a value. */
  predicate Truthy(v: JsValue) {
    match v
    case Undefined => false
    case Number(n) => n != 0
    case Inherited(_) => true
  }

  /** The properties every plain object inherits from `Object.prototype`. */
  const ObjectPrototypeNames: set<string> := {
    "constructor", "hasOwnProperty", "isPrototypeOf", "propertyIsEnumerable",
    "toLocaleString", "toString", "valueOf", "__proto__",
    "__defineGetter__", "__defineSetter__", "__lookupGetter__", "__lookupSetter__"
  }

  /** `genreMap[key]`: an own entry first, then the inherited members. */
  function GenreMapGet(key: string): (v: JsValue)
    ensures key in GenreTable ==> v == Number(GenreTable[key])
    ensures key !in GenreTable && key !in ObjectPrototypeNames ==> v == Undefined
  {
    if key in GenreTable then Number(GenreTable[key])
    else if key in ObjectPrototypeNames then Inherited(key)
    else Undefined
  }

  /** The guard `if (!genreId)` as written lets one key the normaliser can
      produce through without a table entry: `constructor`. */
  lemma ConstructorPassesGuard()
    ensures NormalizeKey("constructor") == "constructor"
    ensures Truthy(GenreMapGet("constructor")) && "constructor" !in GenreTable
    ensures Lookup("constructor") == None
  {
    ConstructorIsKeyShape();
    NormalizeKeyFixes("constructor");
    ConstructorNotInTable();
  }

  lemma ConstructorIsKeyShape()
    ensures IsGenreKeyShape("constructor")
  {
  }

  lemma ConstructorNotInTable()
    ensures "constructor" !in GenreTable
  {
  }

  /** On every key the normaliser can produce, the written guard accepts the
      table's keys and `constructor`, and nothing else; the exact lookup
      accepts the table's keys only. */
  lemma GuardOnNormalisedKeys(key: string)
    requires IsGenreKeyShape(key)
    ensures Truthy(GenreMapGet(key)) <==> key in GenreTable || key == "constructor"
    ensures Lookup(key).Some? <==> Truthy(GenreMapGet(key)) && key != "constructor"
  {
    if key in ObjectPrototypeNames && key != "constructor" {
      PrototypeNamesNotKeys(key);
      assert false;
    }
  }

  /** Apart from `constructor`, every inherited name holds a capital or an
      underscore, which the normaliser removes. */
  lemma PrototypeNamesNotKeys(name: string)
    requires name in ObjectPrototypeNames && name != "constructor"
    ensures !IsGenreKeyShape(name)
  {
    var i :=
      if name == "hasOwnProperty" then 3
      else if name == "isPrototypeOf" || name == "toLocaleString" || name == "toString" then 2
      else if name == "propertyIsEnumerable" then 8
      else if name == "valueOf" then 5
      else 0;
    assert !IsAsciiLower(name[i]);
  }
}

=== FILE: optional.dfy ===
/** A value that may be absent: JavaScript's `undefined`/`null` in the bot's records. */
module Optional {

  datatype Option<+T> = None | Some(value: T)
}

=== FILE: router.dfy ===
/**
 The `messageCreate` handler of index.js with its I/O lifted out: a message
 is classified into one of five actions, an action names the one request to
 the metadata API it needs (if any), and the fetched result list (or the
 failure) together with the random draw decides the one reply.
 */
module Router {

  import opened Optional
  import opened JsText
  import opened Genres
  import opened Cards

  /** What the handler reads of an incoming chat message. */
  datatype Message = Message(authorIsBot: bool, content: string)

  datatype Action =
    | Ignore
    | Trending
    | GenreUsageHint
    | GenreUnknown
    | GenreFetch(id: int, genre: string)

  /** The request to the metadata API an action needs. */
  datatype Request =
    | TrendingToday
    | DiscoverByGenre(genreId: int, sortBy: string)

  /** What the request came back with: the result list, or any failure
      (network error, error status, missing `results`). */
  datatype FetchResult = FetchFailed | Fetched(results: seq<Movie>)

  /** What the handler sends to the channel: nothing, a plain text, or
      embed cards. */
  datatype Reply = NoReply | Text(text: string) | Embeds(cards: seq<Card>)

  const GenrePrefix := "!genre"
  const PopularityDescending := "popularity.desc"
  const UsageHint := "\U{2757} Please provide a genre. Example: `!genre comedy`"
  const GenreNotRecognized :=
    "\U{2757} Genre not recognized. Try something like `action`, `comedy`, `horror`, `romance`, etc."
  const TrendingApology := "\U{2757} Oops! Couldn't fetch a movie right now."
  const GenreApology := "\U{2757} Couldn't fetch movies from that genre right now."

  /** `message.content.trim().toLowerCase()`: no character `trim` removes at
      either end, and nothing `toLowerCase` would change. */
  function CommandText(content: string): (c: string)
    ensures NoOuterSpace(c)
    ensures forall i :: 0 <= i < |c| ==> IsLowerFixed(c[i])
  {
    var t := Trim(content);
    LowerKeepsEnds(t);
    Lower(t)
  }

  /** Character by character, the command is the lower-cased trimmed text. */
  lemma CommandTextChars(content: string)
    ensures '\U{0130}' !in content ==>
              |CommandText(content)| == |Trim(content)| &&
              forall i :: 0 <= i < |Trim(content)| ==> LowersTo(Trim(content)[i], CommandText(content)[i])
  {
    if '\U{0130}' !in content {
      TrimAddsNothing(content, '\U{0130}');
      LowerEachChar(Trim(content));
    }
  }

  /** Surrounding whitespace never changes the command: padding a text with
      no outer whitespace on either side yields its lower-cased form. */
  lemma CommandTextPadded(a: string, s: string, b: string)
    requires AllTrimmable(a) && AllTrimmable(b) && NoOuterSpace(s)
    ensures CommandText(a + s + b) == Lower(s)
  {
    TrimPadded(a, s, b);
  }

  /** Normalising a command text again changes nothing. */
  lemma CommandTextIdempotent(content: string)
    ensures CommandText(CommandText(content)) == CommandText(content)
  {
    var c := CommandText(content);
    TrimFixesNoOuterSpace(c);
    LowerFixes(c);
  }

  predicate IsTrendingCommand(c: string) {
    c == "!recommend" || c == "!movie"
  }

  /** `content.split(" ")[1]`: present exactly when the text holds a space,
      and then the text after the first space up to the next space or the
      end. */
  function GenreArgument(c: string): (arg: Option<string>)
    ensures arg.Some? <==> ' ' in c
    ensures arg.Some? ==>
              var i, g := IndexOf(c, ' '), arg.value;
              && ' ' !in g && i + 1 + |g| <= |c| && c[i + 1..i + 1 + |g|] == g
              && (i + 1 + |g| == |c| || c[i + 1 + |g|] == ' ')
  {
    SplitSecondField(c, ' ');
    SplitField(c, ' ', 1)
  }

  /** The routing of the handler: the bot check, the exact trending
      commands, then anything starting with `!genre`. */
  function Classify(m: Message): (a: Action)
    ensures a.GenreFetch? ==> a.id > 0 && a.genre != "" && ' ' !in a.genre
  {
    if m.authorIsBot then Ignore else ClassifyCommand(CommandText(m.content))
  }

  /** The routing of a trimmed, lowercased command text from a person: the
      exact trending commands, then anything starting with `!genre`. */
  function ClassifyCommand(c: string): (a: Action)
    ensures a.GenreFetch? ==> a.id > 0 && a.genre != "" && ' ' !in a.genre
  {
    if IsTrendingCommand(c) then Trending
    else if StartsWith(c, GenrePrefix) then ClassifyGenreArgument(GenreArgument(c))
    else Ignore
  }

  /** The genre branch, given field 1 of the command: a missing or empty
      field gets the usage hint, anything else is looked up. */
  function ClassifyGenreArgument(arg: Option<string>): (a: Action)
    ensures a.GenreUsageHint? || a.GenreUnknown? || a.GenreFetch?
    ensures a.GenreUsageHint? <==> arg == None || arg == Some("")
    ensures a.GenreUnknown? <==> arg.Some? && arg.value != "" && Lookup(NormalizeKey(arg.value)) == None
    ensures a.GenreFetch? ==> arg == Some(a.genre) && Lookup(NormalizeKey(a.genre)) == Some(a.id)
  {
    match arg
    case None => GenreUsageHint
    case Some(token) =>
      if token == "" then GenreUsageHint
      else
        match Lookup(NormalizeKey(token))
        case None => GenreUnknown
        case Some(id) => GenreFetch(id, token)
  }

  /** The one request each action sends, and only the two fetching actions
      send one; the genre request filters on the resolved id. */
  function RequestFor(a: Action): (r: Option<Request>)
    ensures r.Some? <==> a.Trending? || a.GenreFetch?
    ensures a.Trending? ==> r == Some(TrendingToday)
    ensures a.GenreFetch? ==> r == Some(DiscoverByGenre(a.id, PopularityDescending))
  {
    match a
    case Trending => Some(TrendingToday)
    case GenreFetch(id, _) => Some(DiscoverByGenre(id, PopularityDescending))
    case _ => None
  }

  /** `Math.floor(u * n)` for a draw `u` of `Math.random()`: an index into a
      non-empty list. */
  function PickIndex(u: real, n: nat): (i: int)
    requires 0.0 <= u < 1.0
    ensures n > 0 ==> 0 <= i < n
    ensures n == 0 ==> i == 0
  {
    var x := u * n as real;
    assert 0.0 <= x;
    assert n > 0 ==> x < n as real;
    x.Floor
  }

  /** The reply of a flow: the card of the picked movie, or the flow's
      apology when the request failed or returned nothing (indexing an
      empty list yields `undefined`, and reading its poster path throws). */
  function FlowReply(f: FetchResult, u: real, card: Movie -> Card, apology: string): (r: Reply)
    requires 0.0 <= u < 1.0
    ensures f.Fetched? && |f.results| > 0
            ==> exists i :: 0 <= i < |f.results| && r == Embeds([card(f.results[i])])
    ensures !(f.Fetched? && |f.results| > 0) ==> r == Text(apology)
  {
    if f.Fetched? && |f.results| > 0 then
      var i := PickIndex(u, |f.results|);
      Embeds([card(f.results[i])])
    else
      Text(apology)
  }

  /** The reply to an action, given what its request returned and the draw. */
  function Respond(a: Action, f: FetchResult, u: real): (r: Reply)
    requires 0.0 <= u < 1.0
    ensures a.Ignore? ==> r == NoReply
    ensures a.GenreUsageHint? ==> r == Text(UsageHint)
    ensures a.GenreUnknown? ==> r == Text(GenreNotRecognized)
    ensures r.Embeds? ==> |r.cards| == 1 && f.Fetched?
    ensures a.Trending? && r.Embeds? ==> exists i :: 0 <= i < |f.results| && r.cards[0] == TrendingCard(f.results[i])
    ensures a.GenreFetch? && r.Embeds? ==> exists i :: 0 <= i < |f.results| && r.cards[0] == GenreCard(f.results[i], a.genre)
    ensures a.Trending? ==> (r.Embeds? <==> f.Fetched? && |f.results| > 0)
    ensures a.Trending? && !r.Embeds? ==> r == Text(TrendingApology)
    ensures a.GenreFetch? ==> (r.Embeds? <==> f.Fetched? && |f.results| > 0)
    ensures a.GenreFetch? && !r.Embeds? ==> r == Text(GenreApology)
  {
    match a
    case Ignore => NoReply
    case GenreUsageHint => Text(UsageHint)
    case GenreUnknown => Text(GenreNotRecognized)
    case Trending => FlowReply(f, u, TrendingCard, TrendingApology)
    case GenreFetch(_, genre) => FlowReply(f, u, m => GenreCard(m, genre), GenreApology)
  }

  /** The whole handler: what one incoming message leads to. A card is sent
      only after a request that returned a non-empty list, and then always. */
  function HandleMessage(m: Message, f: FetchResult, u: real): (r: Reply)
    requires 0.0 <= u < 1.0
    ensures m.authorIsBot ==> r == NoReply
    ensures r.Embeds? ==> |r.cards| == 1 && RequestFor(Classify(m)).Some?
    ensures RequestFor(Classify(m)).Some? ==> (r.Embeds? <==> f.Fetched? && |f.results| > 0)
    ensures RequestFor(Classify(m)).Some? && !r.Embeds?
            ==> r == Text(TrendingApology) || r == Text(GenreApology)
    ensures Classify(m).Trending? && !r.Embeds? ==> r == Text(TrendingApology)
    ensures Classify(m).GenreFetch? && !r.Embeds? ==> r == Text(GenreApology)
  {
    Respond(Classify(m), f, u)
  }

  // ---------------------------------------------------------------------------
  // routing properties
  // ---------------------------------------------------------------------------

  /** A bot's message gets no reply and sends no request, whatever it says. */
  lemma BotIsIgnored(m: Message, f: FetchResult, u: real)
    requires 0.0 <= u < 1.0
    requires m.authorIsBot
    ensures Classify(m) == Ignore
    ensures RequestFor(Classify(m)) == None
    ensures HandleMessage(m, f, u) == NoReply
  {
  }

  /** Neither trending command starts with `!genre`, so the two branches of
      the handler never both run. */
  lemma TrendingIsNotGenre(c: string)
    requires IsTrendingCommand(c)
    ensures !StartsWith(c, GenrePrefix)
  {
    assert c[1] != GenrePrefix[1];
  }

  /** The trending flow runs exactly for `!recommend` and `!movie` after
      trimming and lowercasing. */
  lemma TrendingExactly(m: Message)
    ensures Classify(m) == Trending <==> !m.authorIsBot && IsTrendingCommand(CommandText(m.content))
  {
  }

  /** The usage hint is sent exactly when a `!genre` command has no field 1,
      or an empty one. */
  lemma UsageHintExactly(m: Message)
    ensures Classify(m) == GenreUsageHint
            <==> && !m.authorIsBot
                 && StartsWith(CommandText(m.content), GenrePrefix)
                 && (GenreArgument(CommandText(m.content)) == None
                     || GenreArgument(CommandText(m.content)) == Some(""))
  {
    ClassifyCases(m);
  }

  /** A `!genre` token whose key is not in the table is refused. */
  lemma GenreUnknownExactly(m: Message)
    ensures Classify(m) == GenreUnknown
            <==> && !m.authorIsBot
                 && StartsWith(CommandText(m.content), GenrePrefix)
                 && GenreArgument(CommandText(m.content)).Some?
                 && GenreArgument(CommandText(m.content)).value != ""
                 && Lookup(NormalizeKey(GenreArgument(CommandText(m.content)).value)) == None
  {
    ClassifyCases(m);
  }

  /** A `!genre` token whose key is in the table resolves to exactly that
      key's id (see `Genres.Lookup`), and the card will show the token
      itself. */
  lemma GenreFetchExactly(m: Message, id: int, genre: string)
    ensures Classify(m) == GenreFetch(id, genre)
            <==> && !m.authorIsBot
                 && StartsWith(CommandText(m.content), GenrePrefix)
                 && GenreArgument(CommandText(m.content)) == Some(genre)
                 && genre != ""
                 && Lookup(NormalizeKey(genre)) == Some(id)
  {
    ClassifyCases(m);
  }

  /** The three ways a message can be classified: ignored as a bot's, as a
      trending command, or by its `!genre` field 1. */
  lemma ClassifyCases(m: Message)
    ensures m.authorIsBot ==> Classify(m) == Ignore
    ensures !m.authorIsBot && IsTrendingCommand(CommandText(m.content))
            ==> Classify(m) == Trending && !StartsWith(CommandText(m.content), GenrePrefix)
    ensures !m.authorIsBot && StartsWith(CommandText(m.content), GenrePrefix)
            ==> Classify(m) == ClassifyGenreArgument(GenreArgument(CommandText(m.content)))
    ensures !m.authorIsBot && !IsTrendingCommand(CommandText(m.content))
            && !StartsWith(CommandText(m.content), GenrePrefix)
            ==> Classify(m) == Ignore
  {
    var c := CommandText(m.content);
    if IsTrendingCommand(c) {
      TrendingIsNotGenre(c);
    }
  }

  /** Every other message is ignored. */
  lemma IgnoreExactly(m: Message)
    ensures Classify(m) == Ignore
            <==> m.authorIsBot
                 || (!IsTrendingCommand(CommandText(m.content))
                     && !StartsWith(CommandText(m.content), GenrePrefix))
  {
  }

  /** The genre shown on the card is the token as lowercased with the whole
      message, and the key looked up is that token with its non-letters
      removed. */
  lemma GenreLabelIsLowercaseToken(m: Message)
    ensures Classify(m).GenreFetch? ==> Lower(Classify(m).genre) == Classify(m).genre
    ensures Classify(m).GenreFetch? ==> NormalizeKey(Classify(m).genre) == KeepLetters(Classify(m).genre)
  {
    if Classify(m).GenreFetch? {
      var c := CommandText(m.content);
      var g := Classify(m).genre;
      SplitPartsFromInput(c, ' ');
      assert g == Split(c, ' ')[1];
      assert forall i :: 0 <= i < |g| ==> g[i] in c;
      assert forall i :: 0 <= i < |g| ==> IsLowerFixed(g[i]);
      LowerFixes(g);
      NormalizeLowercaseToken(g);
    }
  }

  /** Only a fetching action depends on what the request returned and on the
      draw: every other reply is decided by the message alone. */
  lemma NoRequestNoDependence(m: Message, f1: FetchResult, u1: real, f2: FetchResult, u2: real)
    requires 0.0 <= u1 < 1.0 && 0.0 <= u2 < 1.0
    ensures RequestFor(Classify(m)) == None ==> HandleMessage(m, f1, u1) == HandleMessage(m, f2, u2)
  {
  }

  /** A trending reply to a non-empty result list is one card with the
      rating as its only field and the trending colour. */
  lemma TrendingReplyHasNoGenre(f: FetchResult, u: real)
    requires 0.0 <= u < 1.0
    requires f.Fetched? && |f.results| > 0
    ensures var cards := Respond(Trending, f, u).cards;
            |cards| == 1 && |cards[0].fields| == 1
            && cards[0].fields[0].name == RatingName && cards[0].color == TrendingColor
  {
  }

  /** A genre reply to a non-empty result list is one card whose first field
      shows the token the user typed, then the rating, in the genre colour. */
  lemma GenreReplyShowsToken(id: int, genre: string, f: FetchResult, u: real)
    requires 0.0 <= u < 1.0
    requires f.Fetched? && |f.results| > 0
    ensures var cards := Respond(GenreFetch(id, genre), f, u).cards;
            |cards| == 1 && |cards[0].fields| == 2
            && cards[0].fields[0] == Field(GenreName, genre, true)
            && cards[0].fields[1].name == RatingName && cards[0].color == GenreColor
  {
  }
}

=== FILE: scenarios.dfy ===
/**
 Concrete messages and what the handler does with them, derived from the
 general definitions.
 */
module Scenarios {

  import opened Optional
  import opened JsText
  import opened Genres
  import opened Router

  /** A person's command that is already trimmed and in lowercase is routed
      as it stands. */
  lemma {:induction false} PlainMessage(s: string)
    requires NoOuterSpace(s)
    requires forall i :: 0 <= i < |s| ==> IsLowerFixed(s[i])
    ensures Classify(Message(false, s)) == ClassifyCommand(s)
  {
    TrimFixesNoOuterSpace(s);
    LowerFixes(s);
  }

  /** `!genre`, a space, and a token without spaces: field 1 is the token. */
  lemma {:induction false} GenreCommandArgument(token: string)
    requires ' ' !in token
    ensures StartsWith(GenrePrefix + " " + token, GenrePrefix)
    ensures !IsTrendingCommand(GenrePrefix + " " + token)
    ensures GenreArgument(GenrePrefix + " " + token) == Some(token)
  {
    var s := GenrePrefix + " " + token;
    assert s[..|GenrePrefix|] == GenrePrefix;
    assert Join([GenrePrefix, token], ' ') == s;
    SplitJoin([GenrePrefix, token], ' ');
  }

  /** A trending command with anything after it is neither trending nor a
      genre command: it is ignored. */
  lemma {:induction false} TrendingCommandWithTextIgnored(cmd: string, rest: string)
    requires IsTrendingCommand(cmd) && rest != ""
    ensures ClassifyCommand(cmd + rest) == Ignore
  {
    var c := cmd + rest;
    assert c[1] == cmd[1];
    if cmd == "!movie" {
      assert |c| > 6 && c[1] == 'm';
    } else {
      assert |c| > 10 && c[1] == 'r';
    }
    assert c[1] != GenrePrefix[1];
  }

  /** `!movie now` is ignored. */
  lemma MovieWithArgumentIgnored()
    ensures ClassifyCommand("!movie" + " now") == Ignore
  {
    TrendingCommandWithTextIgnored("!movie", " now");
  }

  /** `!MOVIE` in capitals is `!movie`. */
  lemma ShoutedMovieLowered()
    ensures Lower("!MOVIE") == "!movie"
  {
  }

  /** Surrounding white space and capitals do not matter to `!movie`. */
  lemma ShoutedMovieIsTrending(a: string, b: string)
    requires AllTrimmable(a) && AllTrimmable(b)
    ensures Classify(Message(false, a + "!MOVIE" + b)) == Trending
  {
    var s := a + "!MOVIE" + b;
    TrimPadded(a, "!MOVIE", b);
    ShoutedMovieLowered();
    assert CommandText(s) == "!movie";
    ClassifyCases(Message(false, s));
  }

  /** `!genre` followed by anything without a space, `!genre` alone
      included, has no field 1 and gets the usage hint. */
  lemma {:induction false} GenreWithoutSpaceGetsUsageHint(rest: string)
    requires ' ' !in rest
    ensures ClassifyCommand(GenrePrefix + rest) == GenreUsageHint
  {
    var c := GenrePrefix + rest;
    assert c[..|GenrePrefix|] == GenrePrefix;
    assert ' ' !in c by {
      forall i | 0 <= i < |c| ensures c[i] != ' ' {
        if i >= |GenrePrefix| { assert c[i] == rest[i - |GenrePrefix|]; }
      }
    }
    SplitNoSeparator(c, ' ');
    assert !IsTrendingCommand(c) by {
      assert c[1] == 'g';
    }
  }

  /** `!genre` alone and `!genrecomedy` get the usage hint, which sends no
      request. */
  lemma MissingGenreGetsUsageHint()
    ensures ClassifyCommand(GenrePrefix) == GenreUsageHint
    ensures ClassifyCommand(GenrePrefix + "comedy") == GenreUsageHint
    ensures RequestFor(GenreUsageHint) == None
  {
    GenreWithoutSpaceGetsUsageHint("");
    assert GenrePrefix + "" == GenrePrefix;
    GenreWithoutSpaceGetsUsageHint("comedy");
  }

  /** `!genre` followed by two spaces has an empty field 1 and gets the usage
      hint, whatever follows. */
  lemma {:induction false} DoubleSpaceGetsUsageHint(rest: string)
    ensures ClassifyCommand(GenrePrefix + "  " + rest) == GenreUsageHint
  {
    var c := GenrePrefix + "  " + rest;
    assert c == GenrePrefix + ("  " + rest);
    assert c[..|GenrePrefix|] == GenrePrefix;
    assert c[1] == 'g';
    var p := Split("  " + rest, ' ');
    assert ("  " + rest)[1..] == " " + rest;
    assert (" " + rest)[1..] == rest;
    assert Split("  " + rest, ' ') == [[]] + Split(" " + rest, ' ');
    assert Split(" " + rest, ' ') == [[]] + Split(rest, ' ');
    SplitRun(GenrePrefix, "  " + rest, ' ');
  }

  /** A `!genre` command with a non-empty token without spaces routes on the
      normalised token. */
  lemma {:induction false} GenreTokenRoutes(token: string)
    requires token != "" && ' ' !in token
    ensures ClassifyCommand(GenrePrefix + " " + token)
            == match Lookup(NormalizeKey(token))
               case None => GenreUnknown
               case Some(id) => GenreFetch(id, token)
  {
    GenreCommandArgument(token);
  }

  /** A `!genre` command with a one-word token of letters only routes on the
      exact lookup of that token. */
  lemma {:induction false} GenreWordRoutes(token: string)
    requires token != "" && IsGenreKeyShape(token)
    ensures ClassifyCommand(GenrePrefix + " " + token)
            == match Lookup(token)
               case None => GenreUnknown
               case Some(id) => GenreFetch(id, token)
  {
    assert ' ' !in token by {
      assert forall i :: 0 <= i < |token| ==> token[i] != ' ';
    }
    GenreCommandArgument(token);
    NormalizeKeyFixes(token);
  }

  /** `!genre comedy` asks the metadata API for genre 35. */
  lemma ComedyResolves()
    ensures ClassifyCommand(GenrePrefix + " " + "comedy") == GenreFetch(35, "comedy")
    ensures RequestFor(ClassifyCommand(GenrePrefix + " " + "comedy"))
            == Some(DiscoverByGenre(35, PopularityDescending))
  {
    GenreWordRoutes("comedy");
    ComedyIs35();
  }

  lemma ComedyIs35()
    ensures Lookup("comedy") == Some(35)
  {
  }

  /** An unknown genre gets the refusal, which sends no request. */
  lemma UnknownGenreRefused()
    ensures ClassifyCommand(GenrePrefix + " " + "zzznotreal") == GenreUnknown
    ensures RequestFor(GenreUnknown) == None
  {
    GenreWordRoutes("zzznotreal");
    NotAGenre();
  }

  lemma NotAGenre()
    ensures Lookup("zzznotreal") == None
  {
  }

  /** `constructor` is not a key of the exact table, so it is refused too. */
  lemma ConstructorRefused()
    ensures ClassifyCommand(GenrePrefix + " " + "constructor") == GenreUnknown
  {
    ConstructorPassesGuard();
    GenreCommandArgument("constructor");
  }

  /** Two words joined by a hyphen normalise to the two words run together. */
  lemma HyphenatedKey(a: string, b: string)
    requires IsGenreKeyShape(a) && IsGenreKeyShape(b)
    ensures NormalizeKey(a + "-" + b) == a + b
  {
    var t := a + "-" + b;
    assert forall i :: 0 <= i < |t| ==> IsLowerFixed(t[i]);
    NormalizeLowercaseToken(t);
    DropOneSeparator(a, '-', b);
  }

  /** One non-letter between two words of letters is the only thing removed. */
  lemma DropOneSeparator(a: string, c: char, b: string)
    requires IsGenreKeyShape(a) && IsGenreKeyShape(b) && !IsAsciiLower(c)
    ensures KeepLetters(a + [c] + b) == a + b
  {
    KeepLettersAppend(a + [c], b);
    KeepLettersAppend(a, [c]);
    KeepLettersFixed(a);
    KeepLettersFixed(b);
  }

  /** A `!genre` command whose token is two words joined by a hyphen routes on
      the two words run together, and the card keeps the hyphen. */
  lemma {:induction false} HyphenatedGenreRoutes(a: string, b: string)
    requires IsGenreKeyShape(a) && IsGenreKeyShape(b)
    ensures ClassifyCommand(GenrePrefix + " " + (a + "-" + b))
            == match Lookup(a + b)
               case None => GenreUnknown
               case Some(id) => GenreFetch(id, a + "-" + b)
  {
    var t := a + "-" + b;
    assert forall i :: 0 <= i < |t| ==> t[i] != ' ';
    HyphenatedKey(a, b);
    GenreTokenRoutes(t);
  }

  /** `!genre science-fiction` loses its hyphen, resolves to 878, and the
      card shows the token with the hyphen. */
  lemma ScienceFictionResolves()
    ensures ClassifyCommand(GenrePrefix + " " + ("science" + "-" + "fiction"))
            == GenreFetch(878, "science" + "-" + "fiction")
  {
    HyphenatedGenreRoutes("science", "fiction");
    ScienceFictionIs878();
  }

  lemma ScienceFictionIs878()
    ensures Lookup("science" + "fiction") == Some(878)
  {
    assert "science" + "fiction" == "sciencefiction";
  }
}

=== FILE: text.dfy ===
/**
 The handful of JavaScript string operations the message handler of index.js
 relies on: `trim`, `toLowerCase`, `startsWith`, `split(" ")` and the
 `replace(/[^a-z]/g, "")` filter, each given its own characterisation.
 */
module JsText {

  import opened Optional

  // ---------------------------------------------------------------------------
  // trim
  // ---------------------------------------------------------------------------

  /** The characters `String.prototype.trim` removes: ECMAScript WhiteSpace
      (tab, vertical tab, form feed, space, no-break space, byte-order mark and
      the Unicode space separators) and LineTerminator (LF, CR, LS, PS). */
  predicate IsTrimmable(c: char) {
    var n := c as int;
    || n == 0x09 || n == 0x0A || n == 0x0B || n == 0x0C || n == 0x0D
    || n == 0x20 || n == 0xA0 || n == 0x1680
    || (0x2000 <= n <= 0x200A)
    || n == 0x2028 || n == 0x2029 || n == 0x202F || n == 0x205F
    || n == 0x3000 || n == 0xFEFF
  }

  predicate AllTrimmable(s: string) {
    forall i :: 0 <= i < |s| ==> IsTrimmable(s[i])
  }

  /** Neither end of `s` carries a character `trim` would remove. */
  predicate NoOuterSpace(s: string) {
    s == [] || (!IsTrimmable(s[0]) && !IsTrimmable(s[|s| - 1]))
  }

  /** Runs of trimmable characters concatenate to one. */
  lemma AllTrimmableConcat(a: string, b: string)
    requires AllTrimmable(a) && AllTrimmable(b)
    ensures AllTrimmable(a + b)
  {
    assert forall i :: 0 <= i < |a + b| ==> (a + b)[i] == if i < |a| then a[i] else b[i - |a|];
  }

  /** `s` is `r` with the first `i` characters of `s` before it and the rest
      after it, all of them trimmable. */
  predicate Framed(s: string, r: string, i: int) {
    && 0 <= i <= |s| - |r| && r == s[i..i + |r|]
    && AllTrimmable(s[..i]) && AllTrimmable(s[i + |r|..])
  }

  /** Drops the leading trimmable characters: the result is the longest
      suffix of `s` that does not start with one. */
  function TrimStart(s: string): (r: string)
    ensures |r| <= |s| && r == s[|s| - |r|..]
    ensures AllTrimmable(s[..|s| - |r|])
    ensures r == [] || !IsTrimmable(r[0])
  {
    if |s| > 0 && IsTrimmable(s[0]) then
      var t := s[1..];
      var r := TrimStart(t);
      assert s[..|s| - |r|] == [s[0]] + t[..|t| - |r|];
      AllTrimmableConcat([s[0]], t[..|t| - |r|]);
      r
    else
      assert s[..0] == [];
      s
  }

  /** Drops the trailing trimmable characters: the result is the longest
      prefix of `s` that does not end with one. */
  function TrimEnd(s: string): (r: string)
    ensures |r| <= |s| && r == s[..|r|]
    ensures AllTrimmable(s[|r|..])
    ensures r == [] || !IsTrimmable(r[|r| - 1])
  {
    if |s| > 0 && IsTrimmable(s[|s| - 1]) then
      var t := s[..|s| - 1];
      var r := TrimEnd(t);
      assert s[|r|..] == t[|r|..] + [s[|s| - 1]];
      AllTrimmableConcat(t[|r|..], [s[|s| - 1]]);
      r
    else
      assert s[|s|..] == [];
      s
  }

  /** `String.prototype.trim`: `s` is the result framed by two runs of
      trimmable characters, and the result has none at either end. */
  function Trim(s: string): (r: string)
    ensures NoOuterSpace(r)
    ensures exists i :: Framed(s, r, i)
  {
    var e := TrimEnd(s);
    var r := TrimStart(e);
    TrimFrame(s, e, r);
    r
  }

  /** Trimming only removes characters, so a character absent from the
      input is absent from the result. */
  lemma TrimAddsNothing(s: string, x: char)
    requires x !in s
    ensures x !in Trim(s)
  {
    var i :| Framed(s, Trim(s), i);
  }

  /** The two halves of `trim` put together: a prefix `e` of `s` followed by
      trimmable characters, and a suffix `r` of `e` preceded by them. */
  lemma TrimFrame(s: string, e: string, r: string)
    requires |e| <= |s| && e == s[..|e|] && AllTrimmable(s[|e|..])
    requires e == [] || !IsTrimmable(e[|e| - 1])
    requires |r| <= |e| && r == e[|e| - |r|..] && AllTrimmable(e[..|e| - |r|])
    requires r == [] || !IsTrimmable(r[0])
    ensures NoOuterSpace(r)
    ensures Framed(s, r, |e| - |r|)
  {
    var i := |e| - |r|;
    assert r == s[i..|e|];
    forall k | 0 <= k < i
      ensures IsTrimmable(s[..i][k])
    {
      assert s[..i][k] == e[..i][k];
    }
    if r != [] {
      assert r[|r| - 1] == e[|e| - 1];
    }
    assert s[i + |r|..] == s[|e|..];
  }

  /** Trimming removes exactly the white space around a text that has none
      at its own ends. */
  lemma {:induction false} TrimPadded(a: string, s: string, b: string)
    requires AllTrimmable(a) && AllTrimmable(b) && NoOuterSpace(s)
    ensures Trim(a + s + b) == s
  {
    var t := a + s + b;
    var e := TrimEnd(t);
    TrimEndPadded(a + s, b);
    assert e == TrimEnd(a + s);
    if s == [] {
      assert a + s == a;
      AllTrimmableTrimEnd(a);
      assert TrimStart([]) == [];
    } else {
      TrimEndFixes(a + s);
      TrimStartPadded(a, s);
    }
  }

  lemma {:induction false} AllTrimmableTrimEnd(a: string)
    requires AllTrimmable(a)
    ensures TrimEnd(a) == []
  {
    if a != [] {
      assert a[..|a| - 1] + [a[|a| - 1]] == a;
      AllTrimmableTrimEnd(a[..|a| - 1]);
    }
  }

  lemma {:induction false} TrimEndPadded(s: string, b: string)
    requires AllTrimmable(b)
    ensures TrimEnd(s + b) == TrimEnd(s)
  {
    if b != [] {
      var b' := b[..|b| - 1];
      assert (s + b)[..|s + b| - 1] == s + b';
      TrimEndPadded(s, b');
    } else {
      assert s + b == s;
    }
  }

  lemma TrimEndFixes(s: string)
    requires s != [] && !IsTrimmable(s[|s| - 1])
    ensures TrimEnd(s) == s
  {
  }

  lemma {:induction false} TrimStartPadded(a: string, s: string)
    requires AllTrimmable(a) && s != [] && !IsTrimmable(s[0])
    ensures TrimStart(a + s) == s
  {
    if a != [] {
      assert (a + s)[1..] == a[1..] + s;
      TrimStartPadded(a[1..], s);
    } else {
      assert a + s == s;
    }
  }

  /** Trimming twice is trimming once. */
  lemma {:induction false} TrimIdempotent(s: string)
    ensures Trim(Trim(s)) == Trim(s)
  {
    var r := Trim(s);
    TrimFixesNoOuterSpace(r);
  }

  lemma {:induction false} TrimFixesNoOuterSpace(s: string)
    requires NoOuterSpace(s)
    ensures Trim(s) == s
  {
    if s != [] {
      TrimEndFixes(s);
      TrimStartFixes(s);
    }
  }

  lemma TrimStartFixes(s: string)
    requires s != [] && !IsTrimmable(s[0])
    ensures TrimStart(s) == s
  {
  }

  // ---------------------------------------------------------------------------
  // toLowerCase
  // ---------------------------------------------------------------------------

  predicate IsAsciiUpper(c: char) { 'A' <= c <= 'Z' }

  predicate IsAsciiLower(c: char) { 'a' <= c <= 'z' }

  /** The Unicode lowercase mapping, exact for every character whose lowercase
      form contains an ASCII letter: the ASCII capitals, LATIN CAPITAL LETTER I
      WITH DOT ABOVE (lowercased to `i` followed by COMBINING DOT ABOVE) and
      KELVIN SIGN (lowercased to `k`). Every other character is kept. */
  function LowerChar(c: char): (r: string)
    ensures |r| >= 1
    ensures forall i :: 0 <= i < |r| ==> !IsAsciiUpper(r[i])
  {
    if IsAsciiUpper(c) then [(c as int + 32) as char]
    else if c == '\U{0130}' then ['i', '\U{0307}']
    else if c == '\U{212A}' then ['k']
    else [c]
  }

  /** A character `LowerChar` keeps as it is. */
  predicate IsLowerFixed(c: char) {
    !IsAsciiUpper(c) && c != '\U{0130}' && c != '\U{212A}'
  }

  /** `String.prototype.toLowerCase`, character by character. */
  function Lower(s: string): (r: string)
    ensures forall i :: 0 <= i < |r| ==> IsLowerFixed(r[i])
    ensures |r| >= |s|
  {
    if s == [] then []
    else
      var h := LowerChar(s[0]);
      assert forall i :: 0 <= i < |h| ==> IsLowerFixed(h[i]);
      h + Lower(s[1..])
  }

  lemma {:induction false} LowerAppend(a: string, b: string)
    ensures Lower(a + b) == Lower(a) + Lower(b)
  {
    if a == [] {
      assert a + b == b;
    } else {
      assert (a + b)[1..] == a[1..] + b;
      LowerAppend(a[1..], b);
    }
  }

  /** A string without capitals or the two special characters is its own
      lowercase form. */
  lemma {:induction false} LowerFixes(s: string)
    requires forall i :: 0 <= i < |s| ==> IsLowerFixed(s[i])
    ensures Lower(s) == s
  {
    if s != [] {
      LowerFixes(s[1..]);
    }
  }

  /** Lowercasing twice is lowercasing once. */
  lemma LowerIdempotent(s: string)
    ensures Lower(Lower(s)) == Lower(s)
  {
    LowerFixes(Lower(s));
  }

  /** `d` is what `toLowerCase` makes of `c`, for any `c` but U+0130: an
      ASCII capital becomes the letter 32 code points above it, KELVIN SIGN
      becomes `k`, and every other character stays as it is. */
  predicate LowersTo(c: char, d: char) {
    && (IsAsciiUpper(c) ==> d as int == c as int + 32)
    && (c == '\U{212A}' ==> d == 'k')
    && (IsLowerFixed(c) ==> d == c)
  }

  /** Lowercasing a text without U+0130 (the one character whose lowercase
      form is two characters long) keeps its length and lowercases each
      character on its own. */
  lemma {:induction false} LowerEachChar(s: string)
    requires '\U{0130}' !in s
    ensures |Lower(s)| == |s|
    ensures forall i :: 0 <= i < |s| ==> LowersTo(s[i], Lower(s)[i])
  {
    if s != [] {
      var t := s[1..];
      assert '\U{0130}' !in t by {
        assert forall i :: 0 <= i < |t| ==> t[i] == s[i + 1];
      }
      LowerEachChar(t);
      LowerCons(s[0], t);
      assert s == [s[0]] + t;
      var r := Lower(s);
      assert LowersTo(s[0], r[0]);
      forall i | 1 <= i < |s|
        ensures LowersTo(s[i], r[i])
      {
        assert r[i] == Lower(t)[i - 1] && s[i] == t[i - 1];
      }
    }
  }

  /** The first character of a text lowercases on its own. */
  lemma LowerCons(c: char, t: string)
    requires c != '\U{0130}'
    ensures |LowerChar(c)| == 1 && LowersTo(c, LowerChar(c)[0])
    ensures Lower([c] + t) == [LowerChar(c)[0]] + Lower(t)
  {
    LowerAppend([c], t);
    assert [c][1..] == [];
  }

  /** Two characters that are equal up to ASCII case. */
  predicate SameUpToAsciiCase(a: char, b: char) {
    || a == b
    || (IsAsciiUpper(a) && b as int == a as int + 32)
    || (IsAsciiUpper(b) && a as int == b as int + 32)
  }

  /** Texts that differ only in the case of ASCII letters lowercase to the
      same text: the commands are case-insensitive. */
  lemma LowerIgnoresAsciiCase(s: string, t: string)
    requires '\U{0130}' !in s
    requires |s| == |t| && forall i :: 0 <= i < |s| ==> SameUpToAsciiCase(s[i], t[i])
    ensures Lower(s) == Lower(t)
  {
    assert '\U{0130}' !in t by {
      forall i | 0 <= i < |t| ensures t[i] != '\U{0130}' {
        assert SameUpToAsciiCase(s[i], t[i]);
      }
    }
    LowerEachChar(s);
    LowerEachChar(t);
    forall i | 0 <= i < |s|
      ensures Lower(s)[i] == Lower(t)[i]
    {
      assert SameUpToAsciiCase(s[i], t[i]);
      assert LowersTo(s[i], Lower(s)[i]) && LowersTo(t[i], Lower(t)[i]);
    }
  }

  /** Lowercasing a character that `trim` keeps gives characters `trim`
      keeps at both ends. */
  lemma LowerCharEnds(c: char)
    requires !IsTrimmable(c)
    ensures !IsTrimmable(LowerChar(c)[0])
    ensures !IsTrimmable(LowerChar(c)[|LowerChar(c)| - 1])
  {
  }

  /** Lowercasing a trimmed text leaves it trimmed. */
  lemma LowerKeepsEnds(s: string)
    requires NoOuterSpace(s)
    ensures NoOuterSpace(Lower(s))
  {
    if s != [] {
      LowerCharEnds(s[0]);
      LowerCharEnds(s[|s| - 1]);
      LowerFirst(s);
      LowerLast(s);
    }
  }

  lemma LowerSingle(c: char)
    ensures Lower([c]) == LowerChar(c)
  {
    assert [c][1..] == [];
  }

  /** The lowercase form starts with the lowercase form of the first character. */
  lemma LowerFirst(s: string)
    requires s != []
    ensures Lower(s)[0] == LowerChar(s[0])[0]
  {
    assert s == [s[0]] + s[1..];
    LowerAppend([s[0]], s[1..]);
    LowerSingle(s[0]);
  }

  /** The lowercase form ends with the lowercase form of the last character. */
  lemma LowerLast(s: string)
    requires s != []
    ensures var h := LowerChar(s[|s| - 1]);
            Lower(s)[|Lower(s)| - 1] == h[|h| - 1]
  {
    var n := |s|;
    assert s == s[..n - 1] + [s[n - 1]];
    LowerAppend(s[..n - 1], [s[n - 1]]);
    LowerSingle(s[n - 1]);
  }

  // ---------------------------------------------------------------------------
  // startsWith
  // ---------------------------------------------------------------------------

  predicate StartsWith(s: string, prefix: string) {
    |prefix| <= |s| && s[..|prefix|] == prefix
  }

  // ---------------------------------------------------------------------------
  // split on one separator character
  // ---------------------------------------------------------------------------

  /** `s.split(sep)` for a one-character separator: the maximal runs between
      separators, in order, empty runs included (so `""` gives `[""]`). */
  function Split(s: string, sep: char): (parts: seq<string>)
    ensures |parts| >= 1
    ensures forall k :: 0 <= k < |parts| ==> sep !in parts[k]
  {
    if s == [] then [[]]
    else if s[0] == sep then [[]] + Split(s[1..], sep)
    else
      var rest := Split(s[1..], sep);
      [[s[0]] + rest[0]] + rest[1..]
  }

  /** `parts.join(sep)`. */
  function Join(parts: seq<string>, sep: char): string
    requires |parts| >= 1
  {
    if |parts| == 1 then parts[0] else parts[0] + [sep] + Join(parts[1..], sep)
  }

  /** Splitting loses nothing: joining the parts back gives the input. */
  lemma {:induction false} JoinSplit(s: string, sep: char)
    ensures Join(Split(s, sep), sep) == s
  {
    if s == [] {
    } else if s[0] == sep {
      JoinSplit(s[1..], sep);
    } else {
      var rest := Split(s[1..], sep);
      JoinSplit(s[1..], sep);
      if |rest| > 1 {
        assert ([[s[0]] + rest[0]] + rest[1..])[1..] == rest[1..];
        assert Join(rest, sep) == rest[0] + [sep] + Join(rest[1..], sep);
      }
    }
  }

  /** Splitting a join of separator-free parts gives the parts back. */
  lemma {:induction false} SplitJoin(parts: seq<string>, sep: char)
    requires |parts| >= 1
    requires forall k :: 0 <= k < |parts| ==> sep !in parts[k]
    ensures Split(Join(parts, sep), sep) == parts
  {
    if |parts| == 1 {
      SplitNoSeparator(parts[0], sep);
      assert parts == [parts[0]];
    } else {
      SplitJoin(parts[1..], sep);
      var tail := Join(parts[1..], sep);
      assert Split([sep] + tail, sep) == [[]] + Split(tail, sep) by {
        assert ([sep] + tail)[1..] == tail;
      }
      var q := Split([sep] + tail, sep);
      assert q[0] == [] && q[1..] == parts[1..];
      SplitRun(parts[0], [sep] + tail, sep);
      assert parts[0] + [sep] + tail == parts[0] + ([sep] + tail);
      assert parts[0] + q[0] == parts[0];
      assert [parts[0]] + parts[1..] == parts;
    }
  }

  /** A separator-free run in front of `t` lengthens the first part only. */
  lemma {:induction false} SplitRun(run: string, t: string, sep: char)
    requires sep !in run
    ensures var p := Split(t, sep);
            Split(run + t, sep) == [run + p[0]] + p[1..]
  {
    if run != [] {
      var p := Split(t, sep);
      SplitRun(run[1..], t, sep);
      assert run + t == [run[0]] + (run[1..] + t);
      SplitCons(run[0], run[1..] + t, sep);
      assert [run[0]] + (run[1..] + p[0]) == run + p[0];
    } else {
      var p := Split(t, sep);
      assert run + t == t;
      assert run + p[0] == p[0];
      assert [p[0]] + p[1..] == p;
    }
  }

  /** A character other than the separator joins the first part. */
  lemma SplitCons(c: char, t: string, sep: char)
    requires c != sep
    ensures var q := Split(t, sep);
            Split([c] + t, sep) == [[c] + q[0]] + q[1..]
  {
    assert ([c] + t)[1..] == t;
  }

  /** Every character of every part in `parts` occurs in `s`. */
  predicate CharsFrom(parts: seq<string>, s: string) {
    forall k, i :: 0 <= k < |parts| && 0 <= i < |parts[k]| ==> parts[k][i] in s
  }

  /** Every character of every part comes from the input. */
  lemma {:induction false} SplitPartsFromInput(s: string, sep: char)
    ensures CharsFrom(Split(s, sep), s)
  {
    if s != [] {
      SplitPartsFromInput(s[1..], sep);
      var rest := Split(s[1..], sep);
      var parts := Split(s, sep);
      forall k, i | 0 <= k < |parts| && 0 <= i < |parts[k]| ensures parts[k][i] in s {
        if s[0] == sep {
          assert parts[k] == rest[k - 1];
          assert rest[k - 1][i] in s[1..];
        } else if k == 0 && i == 0 {
          assert parts[0][0] == s[0];
        } else if k == 0 {
          assert parts[0][i] == rest[0][i - 1];
          assert rest[0][i - 1] in s[1..];
        } else {
          assert parts[k] == rest[k];
          assert rest[k][i] in s[1..];
        }
      }
    }
  }

  /** Field `k` of `s.split(sep)`, `undefined` (None) when there are fewer
      fields. */
  function SplitField(s: string, sep: char, k: nat): (r: Option<string>)
    ensures r.Some? <==> k < |Split(s, sep)|
    ensures r.Some? ==> sep !in r.value
  {
    var parts := Split(s, sep);
    if k < |parts| then Some(parts[k]) else None
  }

  /** A string with no separator splits into itself alone. */
  lemma {:induction false} SplitNoSeparator(s: string, sep: char)
    requires sep !in s
    ensures Split(s, sep) == [s]
  {
    SplitRun(s, [], sep);
    assert s + [] == s;
  }

  /** Position of the first `sep` in `s`. */
  function IndexOf(s: string, sep: char): (i: nat)
    requires sep in s
    ensures i < |s| && s[i] == sep && sep !in s[..i]
  {
    if s[0] == sep then 0
    else
      var j := IndexOf(s[1..], sep);
      assert s[..j + 1] == [s[0]] + s[1..][..j];
      j + 1
  }

  /** The first part of a split is the text up to the first separator, or
      all of it. */
  lemma {:induction false} SplitFirstPart(t: string, sep: char)
    ensures var q := Split(t, sep)[0];
            |q| <= |t| && t[..|q|] == q && (|q| == |t| || t[|q|] == sep)
  {
    if t != [] && t[0] != sep {
      SplitFirstPart(t[1..], sep);
      assert t == [t[0]] + t[1..];
      SplitCons(t[0], t[1..], sep);
    }
  }

  /** After the first separator, the parts are those of the rest. */
  lemma {:induction false} SplitAtFirstSeparator(s: string, sep: char)
    requires sep in s
    ensures var rest := s[IndexOf(s, sep) + 1..];
            |Split(s, sep)| >= 2 && Split(s, sep)[1..] == Split(rest, sep)
  {
    var i := IndexOf(s, sep);
    var rest := s[i + 1..];
    var t := [sep] + rest;
    assert s == s[..i] + t;
    SplitRun(s[..i], t, sep);
    assert t[1..] == rest;
    assert Split(t, sep) == [[]] + Split(rest, sep);
  }

  /** Field 1 of a split exists exactly when the separator occurs, and it is
      the text from just after the first separator up to the next one or the
      end. */
  lemma {:induction false} SplitSecondField(s: string, sep: char)
    ensures |Split(s, sep)| >= 2 <==> sep in s
    ensures sep in s ==>
              var i, f := IndexOf(s, sep), Split(s, sep)[1];
              && i + 1 + |f| <= |s| && s[i + 1..i + 1 + |f|] == f
              && (i + 1 + |f| == |s| || s[i + 1 + |f|] == sep)
  {
    if sep in s {
      var i := IndexOf(s, sep);
      var rest := s[i + 1..];
      SplitAtFirstSeparator(s, sep);
      SplitFirstPart(rest, sep);
      var f := Split(s, sep)[1];
      assert f == Split(rest, sep)[0];
      assert s[i + 1..i + 1 + |f|] == rest[..|f|];
    } else {
      SplitNoSeparator(s, sep);
    }
  }

  // ---------------------------------------------------------------------------
  // replace(/[^a-z]/g, "")
  // ---------------------------------------------------------------------------

  /** Keeps exactly the characters `a`..`z`, in order. */
  function KeepLetters(s: string): (r: string)
    ensures |r| <= |s|
    ensures forall i :: 0 <= i < |r| ==> IsAsciiLower(r[i])
  {
    if s == [] then []
    else if IsAsciiLower(s[0]) then [s[0]] + KeepLetters(s[1..])
    else KeepLetters(s[1..])
  }

  lemma {:induction false} KeepLettersAppend(a: string, b: string)
    ensures KeepLetters(a + b) == KeepLetters(a) + KeepLetters(b)
  {
    if a != [] {
      assert (a + b)[1..] == a[1..] + b;
      KeepLettersAppend(a[1..], b);
    } else {
      assert a + b == b;
    }
  }

  /** The filter changes a string exactly when it holds a character outside
      `a`..`z`. */
  lemma {:induction false} KeepLettersFixed(s: string)
    ensures KeepLetters(s) == s <==> forall i :: 0 <= i < |s| ==> IsAsciiLower(s[i])
  {
    if s != [] {
      KeepLettersFixed(s[1..]);
      if !IsAsciiLower(s[0]) {
        assert |KeepLetters(s)| < |s|;
      }
    }
  }
}
